=== FILE: README.md ===
# InkplateDash birthday list, modelled in Dafny

`dashboard.py` renders a 1200x825 image for an e-paper display. Its one piece of
real computation is the list of the ten next birthdays. For every person in the
configuration's `anniversaires` list, the script reads the ISO birth date with
`strptime`. It moves the date to this year, or to next year when the month and
day have already passed. It computes the age reached on that day and whether the
day is today. It then sorts the records by date, keeps the first ten, and draws
them one line each, 40 pixels apart. Next to this, the energy table picks a unit
for each sensor: "€" when the label contains a euro sign, "kWh" otherwise.

The model follows the script's own steps:

- `results.dfy`: the Python exceptions that stop a run (`KeyError`, the
  `ValueError`s of `strptime` and of date construction), as a `Result` type.
- `decimal.dfy`: ASCII digit strings, zero padding (`%Y`, `%m`, `%d`) and `str(int)`.
- `dates.dfy`: Gregorian dates within Python's year range 1..9999, the leap-year
  rule, chronological order, and `replace(year=...)` with its two errors.
- `iso_date.dfy`: `strptime(text, "%Y-%m-%d")`. It covers the regular expression
  Python builds for this format, the "unconverted data remains" check and the
  date validity check.
- `birthdays.dfy`: the per-person record, the list-building loop (a method), the
  stable sort by date and the cut to ten.
- `layout.dfy`: the integer layout of the birthday lines, their text, the unit
  suffix and the energy table lines.

The script crashes on some inputs, and the model returns these crashes as `Err`
values rather than excluding them. A February 29 birth date only works in a leap
year, on or before February 29. In every other case the first or the second
`replace(year=...)` raises "day is out of range for month" (`OccurrenceFailure`).
A birthday that has already passed in year 9999 needs year 10000, which is out of
range. A missing `date` or `nom` key raises `KeyError`. The `date` key is read
first, at line 70. The `nom` key is read only when the record is built, at line 80.

The list length is the constant 10 fixed at dashboard.py:87. It is not a
parameter. Python's `list.sort` is modelled by an insertion sort. The lemma
`StableSortIsSortByDate` shows that any sorted sequence that keeps the input order
among equal dates equals `SortByDate`. So the choice of sorting algorithm does not
change the modelled result.

## Model

| member | source | states |
|---|---|---|
| `Dates.DaysInMonth` | dashboard.py:70-74 | month lengths of the Gregorian calendar: 28 exactly for February of a common year, 29 exactly for February of a leap year, 31 exactly for the seven long months, 30 for the rest |
| `Dates.MakeDate` | dashboard.py:70 | the date constructor behind `strptime` succeeds exactly on valid dates and returns that date; an out-of-range year raises the year error, otherwise a bad day raises the day error |
| `Dates.ReplaceYear` | dashboard.py:71-74 | `replace(year=y)` keeps month and day and succeeds exactly when `y` is in 1..9999 and the date is not February 29 moved to a non-leap year; it names which error is raised |
| `IsoDate.MonthField` | dashboard.py:70 | the `%m` group fails exactly when the text starts with neither a digit 1-9 nor `0` followed by 1-9; otherwise it reads one or two digits whose value is the month, in 1..12, and takes two whenever they spell 10-12 |
| `IsoDate.DayField` | dashboard.py:70 | the `%d` group fails exactly when the text starts with neither a digit 1-9, nor `0` or a space followed by 1-9; otherwise the digits it reads (after the space, if any) are the day, in 1..31, and it takes two whenever they spell 10-31 |
| `IsoDate.ParseDate` | dashboard.py:70 | a successful parse yields a valid date whose year is the four leading digits; text shorter than eight characters never parses |
| `IsoDate.ParseDateSpells` | dashboard.py:70 | a parsed date is the one the text spells: year in the four leading digits, month in the digits up to the second dash, day in the digits after it, after one optional space; and month and day are each in a spelling the pattern accepts, so with `SpelledDateParses` a text parses exactly when it is an accepted spelling of a valid date |
| `IsoDate.DayOverreadRefused` | dashboard.py:70 | a third day digit (`1990-03-005`) does not match the format, and after a space only one digit is read (`1990-03- 10` leaves "0" unconverted) |
| `IsoDate.SpelledDateParses` | dashboard.py:70 | every valid date parses back from every spelling the pattern accepts: month on two digits or, below 10, on one; day on two digits or, below 10, on one digit alone or after a space (`1990-3-5`, `1990-03-5`, `1990-3-05`, `1990-03- 5`) |
| `IsoDate.ParseFormatRoundTrip` | dashboard.py:70 | every valid date written as `YYYY-MM-DD` parses back to itself |
| `IsoDate.TrailingTextRefused` | dashboard.py:70 | for every valid date and every non-empty text, the ISO form followed by that text raises "unconverted data remains" naming exactly that text |
| `IsoDate.MonthOutOfRangeRefused` | dashboard.py:70 | after any four-digit year, a two-digit month of 00 or of 13 to 99 does not match the format, whatever follows |
| `IsoDate.NonLeapFebruaryTwentyNinthRefused` | dashboard.py:70 | `2023-02-29` matches the pattern and is refused as a day out of range |
| `Birthdays.NextOccurrence` | dashboard.py:71-74 | the occurrence keeps the birth month and day, is valid, is not before today, and is the earliest such date not before today |
| `Birthdays.OccurrenceYear` | dashboard.py:71-74 | the occurrence is in today's year when the birth month/day is not before today's, in the next year otherwise |
| `Birthdays.OccurrenceFailure` | dashboard.py:71-74 | the computation fails exactly for February 29 outside a leap year or after February 29 of one, and for a passed birthday in year 9999; both February 29 cases raise the day error, a passed birthday in 9999 the year error for 10000 |
| `Birthdays.EntryFor` | dashboard.py:69-84 | a missing date key fails first; a record carries the person's name, a valid date not before today, and `is_today` holds exactly when that date is today |
| `Birthdays.EntryAge` | dashboard.py:76 | the age is the occurrence year minus the birth year, so this year's difference or one more when the birthday has passed |
| `Birthdays.EntryForFailure` | dashboard.py:69-84 | a person fails exactly when a key is missing, the date does not parse or the occurrence does not exist; the error is that of the first failing step: the `date` key error, `strptime`'s error as it is, `replace`'s error as it is, then the `nom` key error |
| `Birthdays.BirthdayToday` | dashboard.py:73-77 | birth date 1990-03-10 on 2024-03-10 gives occurrence 2024-03-10, age 34, today |
| `Birthdays.BirthdayPassed` | dashboard.py:73-77 | birth date 1990-01-05 on 2024-03-10 gives occurrence 2025-01-05, age 35, not today |
| `Birthdays.AllEntries` | dashboard.py:67-84 | the list succeeds exactly when every person does, then holds one record per person in input order; otherwise it fails with the error of the first failing person |
| `Birthdays.AllEntriesFailurePersists` | dashboard.py:69-84 | once the loop has hit a failing person, the whole list fails with that person's error |
| `Birthdays.Insert` | dashboard.py:86 | insertion adds exactly the one entry to the multiset of entries |
| `Birthdays.InsertSorted` | dashboard.py:86 | inserting into a sorted list keeps it sorted by date |
| `Birthdays.SortByDate` | dashboard.py:86 | the sort returns a permutation of its input, in non-decreasing date order |
| `Birthdays.SortIsStable` | dashboard.py:86 | for every date, the entries on that date appear in the same order as in the input |
| `Birthdays.StableSortIsUnique` | dashboard.py:86 | two sorted sequences with the same entries per date, in the same order, are equal |
| `Birthdays.StableSortIsSortByDate` | dashboard.py:86 | any stable sort by date, Python's included, yields the same list as SortByDate |
| `Birthdays.NextTen` | dashboard.py:87 | `next_10` has length min(10, n) and is a prefix of the list; cut from a sorted list it is sorted and no entry left out is earlier than a shown one |
| `Birthdays.UpcomingBirthdays` | dashboard.py:64-87 | the loop succeeds exactly when every person does and then returns the first ten of the stably sorted records; on failure it returns the error of the first failing person |
| `Decimal.IntToDecimalRoundTrip` | dashboard.py:121 | `str(age)`, as `IntToDecimal` writes it, has a minus sign exactly for a negative age, its digits read back as the age's magnitude, and they start with 0 only for age 0 |
| `Layout.LineTextShowsDate` | dashboard.py:120-121 | the line built by `LineText` from `DayMonthLabel` starts with the bullet, the two-digit day and the two-digit month of the occurrence, which read back as that day and month, followed by " : " and the name |
| `Layout.BirthdayRows` | dashboard.py:117-125 | one line per shown entry at x = 50, y = 240 + 40 i, with the icon exactly for entries that fall today; lines are 40 apart and ten of them stay above the footer |
| `Layout.BirthdaySection` | dashboard.py:64-124 | the section is drawn exactly when every person yields a record, with min(10, n) lines, all between y = 240 and the footer line at y = 775; line i is at x = 50, y = 240 + 40 i, shows the i-th of the ten earliest sorted records, and has the icon exactly when that record falls today |
| `Layout.UnitSuffix` | dashboard.py:196-199 | the suffix is "€" exactly when the label contains the euro sign, "kWh" exactly when it does not |
| `Layout.EnergyRows` | dashboard.py:181-200 | a sensor without `entity_id` raises that key error before any line; otherwise a sensor without `label` raises that key error; otherwise one table line per sensor at x = 900, y = 500 + 25 i, with the text `EnergyText` builds from label, reading and unit, reading defaulted when missing, each ending in "€" exactly when its label contains the euro sign |

## Left out

- Loading `/config/config.json` (lines 25-42): the list of people and today's date are parameters.
- `datetime.today()` (line 65): today is a parameter, a valid date; its time of day plays no part, since only its year, month and day are read.
- `IsoDate.ParseDate`: reads only ASCII digits, whereas Python's `\d` also matches other Unicode decimal digits.
- `Birthdays.EntryFor`: a `date` value that is not a string (a `TypeError` in `strptime`) is not modelled, and `nom` is taken to be a string.
- `get_sensor_state` and the weather request (lines 49-62, 129-165): HTTP calls. `get_sensor_state` returns 0 on a non-200 status or a state that `float` refuses with `ValueError`; any other failure raises.
- `Layout.EnergyRows`: starts from completed fetches. A fetch that raises aborts the run at line 182, before any table line is drawn and before the image is saved: a transport error in `requests.get` (line 51), a 200 reply that is not JSON (line 53), or a `null` state, for which `float` raises `TypeError` (line 56). Its `Ok` case assumes none of these happened.
- `Layout.EnergyRows`: a `label` that is not a string (a `TypeError` at line 196) is not modelled; labels are taken to be strings.
- `Layout.EnergyRows`: takes each reading already formatted with `.2f`, because float conversion and formatting are not modelled; `MissingReading` is `0` formatted that way.
- Title, date header, section title and footer text (lines 104-114, 202-214): they depend on font metrics, locale and time-zone formatting.
- `Layout.BirthdayRows`: the x position of the cake icon, `x + int(text_width) + 10`, depends on font metrics; only whether the icon is drawn is modelled.
- The trash-day icon (lines 167-175): a weekday lookup and an image file check.
- SVG conversion, image pasting and saving (lines 89-97, 217): rendering and file output.
- The off-peak electricity timeline of a second dashboard variant is not part of this model: its code is not in dashboard.py.

=== FILE: birthdays.dfy ===
/** The "ten next birthdays" list: each configured person's next birthday, the age
    reached on it and whether it is today, sorted by date and cut to ten entries. */
module Birthdays {
  import opened Results
  import opened Dates
  import opened IsoDate

  /** How many entries the dashboard shows. */
  const ShownCount := 10

  /** One object of the configuration's "anniversaires" list; either key may be absent. */
  datatype Person = Person(name: Option<string>, date: Option<string>)

  /** One record of the list: `nom`, `date`, `age`, `is_today`. */
  datatype Entry = Entry(name: string, date: Date, age: int, isToday: bool)

  /** The birth date moved to this year, or to next year when its month and day
      have already passed; either `replace(year=...)` may fail. */
  function NextOccurrence(birth: Date, today: Date): (r: Result<Date>)
    requires IsValid(birth) && IsValid(today)
    ensures r.Ok? ==> IsValid(r.value) && SameMonthDay(r.value, birth)
    ensures r.Ok? ==> AtMost(today, r.value)
    ensures r.Ok? ==> forall c: Date :: SameMonthDay(c, birth) && AtMost(today, c) ==> AtMost(r.value, c)
  {
    match ReplaceYear(birth, today.year)
    case Err(e) => Err(e)
    case Ok(thisYear) =>
      if MonthDayBefore(birth, today) then ReplaceYear(thisYear, today.year + 1) else Ok(thisYear)
  }

  lemma OccurrenceYear(birth: Date, today: Date)
    requires IsValid(birth) && IsValid(today)
    requires NextOccurrence(birth, today).Ok?
    ensures NextOccurrence(birth, today).value.year ==
      if MonthDayBefore(birth, today) then today.year + 1 else today.year
  {
  }

  lemma LeapYearsAreNotConsecutive(y: int)
    requires IsLeapYear(y)
    ensures !IsLeapYear(y + 1)
  {
  }

  /** When the computation fails, and with which error: a February 29 birth date
      succeeds only in a leap year on or before February 29, and in year 9999 a
      birthday that has passed needs year 10000. */
  lemma OccurrenceFailure(birth: Date, today: Date)
    requires IsValid(birth) && IsValid(today)
    ensures NextOccurrence(birth, today).Err? <==>
      (IsLeapDay(birth) && (!IsLeapYear(today.year) || MonthDayBefore(birth, today)))
      || (MonthDayBefore(birth, today) && today.year == MaxYear)
    ensures IsLeapDay(birth) && !IsLeapYear(today.year) ==>
      NextOccurrence(birth, today) == Err(DayOutOfRange)
    ensures !(IsLeapDay(birth) && !IsLeapYear(today.year)) && MonthDayBefore(birth, today) && today.year == MaxYear ==>
      NextOccurrence(birth, today) == Err(YearOutOfRange(MaxYear + 1))
    ensures IsLeapDay(birth) && IsLeapYear(today.year) && MonthDayBefore(birth, today) ==>
      NextOccurrence(birth, today) == Err(DayOutOfRange)
  {
    // The year after a leap year is a common one: the second replace(year=...) of
    // a February 29 birth after February 29 fails on the day.
    if IsLeapYear(today.year) {
      LeapYearsAreNotConsecutive(today.year);
    }
  }

  /** The record built for one person, or the exception that stops the run. The
      "date" key is read first (line 70), the "nom" key only when the record is built. */
  function EntryFor(p: Person, today: Date): (r: Result<Entry>)
    requires IsValid(today)
    ensures p.date.None? ==> r == Err(KeyMissing("date"))
    ensures r.Ok? ==> p.name == Some(r.value.name)
    ensures r.Ok? ==> IsValid(r.value.date) && AtMost(today, r.value.date)
    ensures r.Ok? ==> (r.value.isToday <==> r.value.date == today)
  {
    match p.date
    case None => Err(KeyMissing("date"))
    case Some(text) =>
      match ParseDate(text)
      case Err(e) => Err(e)
      case Ok(birth) =>
        match NextOccurrence(birth, today)
        case Err(e) => Err(e)
        case Ok(occurrence) =>
          match p.name
          case None => Err(KeyMissing("nom"))
          case Some(name) =>
            Ok(Entry(name, occurrence, occurrence.year - birth.year, SameMonthDay(birth, today)))
  }

  /** The age on the occurrence is counted from the birth year: this year's
      difference, or one more when the birthday has passed. */
  lemma EntryAge(p: Person, today: Date)
    requires IsValid(today) && EntryFor(p, today).Ok?
    ensures p.date.Some? && ParseDate(p.date.value).Ok?
    ensures var birth := ParseDate(p.date.value).value;
      var e := EntryFor(p, today).value;
      SameMonthDay(e.date, birth) &&
      e.age == e.date.year - birth.year &&
      e.age == today.year - birth.year + (if MonthDayBefore(birth, today) then 1 else 0)
  {
    var birth := ParseDate(p.date.value).value;
    OccurrenceYear(birth, today);
  }

  /** A person yields a record exactly when both keys are present, the date parses
      and its next occurrence exists; otherwise the error is that of the first step
      that fails: the date key, `strptime`, `replace`, then the name key. */
  lemma EntryForFailure(p: Person, today: Date)
    requires IsValid(today)
    ensures EntryFor(p, today).Err? <==>
      p.date.None? || ParseDate(p.date.value).Err? ||
      NextOccurrence(ParseDate(p.date.value).value, today).Err? || p.name.None?
    ensures p.date.Some? && ParseDate(p.date.value).Err? ==>
            EntryFor(p, today) == Err(ParseDate(p.date.value).error)
    ensures p.date.Some? && ParseDate(p.date.value).Ok? &&
            NextOccurrence(ParseDate(p.date.value).value, today).Err? ==>
            EntryFor(p, today) == Err(NextOccurrence(ParseDate(p.date.value).value, today).error)
    ensures (p.date.Some? && ParseDate(p.date.value).Ok? &&
             NextOccurrence(ParseDate(p.date.value).value, today).Ok? && p.name.None?) ==>
            EntryFor(p, today) == Err(KeyMissing("nom"))
  {
  }

  /** A birthday falling today: occurrence today, age the plain year difference. */
  lemma BirthdayToday()
    ensures EntryFor(Person(Some("Ana"), Some("1990-03-10")), Date(2024, 3, 10)) ==
      Ok(Entry("Ana", Date(2024, 3, 10), 34, true))
  {
    ParseFormatRoundTrip(Date(1990, 3, 10));
    assert FormatDate(Date(1990, 3, 10)) == "1990-03-10";
  }

  /** A birthday already passed this year moves to next year. */
  lemma BirthdayPassed()
    ensures EntryFor(Person(Some("Ben"), Some("1990-01-05")), Date(2024, 3, 10)) ==
      Ok(Entry("Ben", Date(2025, 1, 5), 35, false))
  {
    ParseFormatRoundTrip(Date(1990, 1, 5));
    assert FormatDate(Date(1990, 1, 5)) == "1990-01-05";
  }

  /** The list built by the loop of lines 69-84: one record per person in input
      order, or the first person's exception. */
  function AllEntries(people: seq<Person>, today: Date): (r: Result<seq<Entry>>)
    requires IsValid(today)
    ensures r.Ok? <==> forall i :: 0 <= i < |people| ==> EntryFor(people[i], today).Ok?
    ensures r.Ok? ==> |r.value| == |people|
    ensures r.Ok? ==> forall i :: 0 <= i < |people| ==> EntryFor(people[i], today) == Ok(r.value[i])
    ensures r.Err? ==>
              exists i :: 0 <= i < |people| && EntryFor(people[i], today) == Err(r.error) &&
                          forall j :: 0 <= j < i ==> EntryFor(people[j], today).Ok?
  {
    if people == [] then Ok([])
    else
      var last := |people| - 1;
      var init := people[..last];
      assert forall i :: 0 <= i < last ==> init[i] == people[i];
      match AllEntries(init, today)
      case Err(e) => Err(e)
      case Ok(entries) =>
        match EntryFor(people[last], today)
        case Err(e) =>
          assert EntryFor(people[last], today) == Err(e);
          Err(e)
        case Ok(entry) =>
          assert forall i :: 0 <= i < last ==> (entries + [entry])[i] == entries[i];
          Ok(entries + [entry])
  }

  predicate Sorted(s: seq<Entry>) {
    forall i, j :: 0 <= i < j < |s| ==> AtMost(s[i].date, s[j].date)
  }

  /** Puts `e` before the first entry whose date is not earlier than its own. */
  function Insert(e: Entry, s: seq<Entry>): (r: seq<Entry>)
    ensures |r| == |s| + 1 && multiset(r) == multiset(s) + multiset{e}
  {
    if s == [] || AtMost(e.date, s[0].date) then [e] + s
    else
      assert s == [s[0]] + s[1..];
      [s[0]] + Insert(e, s[1..])
  }

  lemma {:induction false} InsertSorted(e: Entry, s: seq<Entry>)
    requires Sorted(s)
    ensures Sorted(Insert(e, s))
  {
    if s == [] || AtMost(e.date, s[0].date) {
      var r := [e] + s;
      forall i, j | 0 <= i < j < |r|
        ensures AtMost(r[i].date, r[j].date)
      {
        if i == 0 {
          assert AtMost(e.date, s[0].date) && AtMost(s[0].date, s[j - 1].date);
        } else {
          assert r[i] == s[i - 1] && r[j] == s[j - 1];
        }
      }
    } else {
      var rest := Insert(e, s[1..]);
      InsertSorted(e, s[1..]);
      var r := [s[0]] + rest;
      assert s == [s[0]] + s[1..];
      forall i, j | 0 <= i < j < |r|
        ensures AtMost(r[i].date, r[j].date)
      {
        if i == 0 {
          var x := rest[j - 1];
          assert x in multiset(rest);
          if x != e {
            assert x in multiset(s[1..]);
            var m :| 0 <= m < |s[1..]| && s[1..][m] == x;
            assert s[m + 1] == x;
          }
        } else {
          assert r[i] == rest[i - 1] && r[j] == rest[j - 1];
        }
      }
    }
  }

  /** `list.sort(key=date)`: ascending by date, stable (see SortIsStable). */
  function SortByDate(s: seq<Entry>): (r: seq<Entry>)
    ensures |r| == |s| && multiset(r) == multiset(s) && Sorted(r)
  {
    if s == [] then []
    else
      assert s == [s[0]] + s[1..];
      var rest := SortByDate(s[1..]);
      InsertSorted(s[0], rest);
      Insert(s[0], rest)
  }

  /** The entries of `s` falling on date `k`, in their order in `s`. */
  function WithDate(s: seq<Entry>, k: Date): seq<Entry>
  {
    if s == [] then [] else (if s[0].date == k then [s[0]] else []) + WithDate(s[1..], k)
  }

  lemma {:induction false} InsertWithDate(e: Entry, s: seq<Entry>, k: Date)
    ensures WithDate(Insert(e, s), k) == (if e.date == k then [e] else []) + WithDate(s, k)
  {
    if s == [] || AtMost(e.date, s[0].date) {
      assert ([e] + s)[1..] == s;
    } else {
      InsertWithDate(e, s[1..], k);
      assert ([s[0]] + Insert(e, s[1..]))[1..] == Insert(e, s[1..]);
    }
  }

  /** Entries with equal dates keep their input order. */
  lemma {:induction false} SortIsStable(s: seq<Entry>, k: Date)
    ensures WithDate(SortByDate(s), k) == WithDate(s, k)
  {
    if s != [] {
      SortIsStable(s[1..], k);
      InsertWithDate(s[0], SortByDate(s[1..]), k);
    }
  }

  /** An entry falling on `k` in a sorted sequence is not earlier than the first one,
      and the first entry on `k` leads WithDate. */
  lemma {:induction false} WithDateFirst(s: seq<Entry>, k: Date)
    requires Sorted(s) && WithDate(s, k) != []
    ensures s != [] && AtMost(s[0].date, k)
    ensures s[0].date == k ==> WithDate(s, k)[0] == s[0]
  {
    if s[0].date != k {
      assert WithDate(s, k) == WithDate(s[1..], k);
      WithDateFirst(s[1..], k);
      assert s[1..][0] == s[1];
    }
  }

  /** Two sorted sequences that agree, date by date, on which entries fall on that
      date and in which order are equal: a stable sort has exactly one result. */
  lemma {:induction false} StableSortIsUnique(a: seq<Entry>, b: seq<Entry>)
    requires Sorted(a) && Sorted(b)
    requires forall k :: WithDate(a, k) == WithDate(b, k)
    ensures a == b
    decreases |a|
  {
    if a != [] {
      var ka := a[0].date;
      assert WithDate(a, ka) != [];
      assert WithDate(b, ka) != [];
      WithDateFirst(b, ka);
      var kb := b[0].date;
      assert WithDate(b, kb) != [];
      assert WithDate(a, kb) != [];
      WithDateFirst(a, kb);
      assert ka == kb;
      WithDateFirst(b, ka);
      assert a[0] == WithDate(a, ka)[0] == WithDate(b, ka)[0] == b[0];
      forall k
        ensures WithDate(a[1..], k) == WithDate(b[1..], k)
      {
        var head := if ka == k then [a[0]] else [];
        assert WithDate(a, k) == head + WithDate(a[1..], k);
        assert WithDate(b, k) == head + WithDate(b[1..], k);
        assert (head + WithDate(a[1..], k))[|head|..] == WithDate(a[1..], k);
        assert (head + WithDate(b[1..], k))[|head|..] == WithDate(b[1..], k);
      }
      StableSortIsUnique(a[1..], b[1..]);
      assert a == [a[0]] + a[1..];
      assert b == [b[0]] + b[1..];
    } else if b != [] {
      assert false;
    }
  }

  /** Any stable sort by date (Python's `list.sort` among them) yields SortByDate. */
  lemma StableSortIsSortByDate(s: seq<Entry>, r: seq<Entry>)
    requires Sorted(r)
    requires forall k :: WithDate(r, k) == WithDate(s, k)
    ensures r == SortByDate(s)
  {
    forall k
      ensures WithDate(r, k) == WithDate(SortByDate(s), k)
    {
      SortIsStable(s, k);
    }
    StableSortIsUnique(r, SortByDate(s));
  }

  function Min(a: int, b: int): int {
    if a < b then a else b
  }

  /** `next_10 = upcoming_birthdays[:10]`: the first ten entries of the list, or
      all of them when there are fewer. Cut from a sorted list, they are the
      earliest ones: no entry left out is earlier than a shown one. */
  function NextTen(sorted: seq<Entry>): (shown: seq<Entry>)
    ensures |shown| == Min(ShownCount, |sorted|) && shown <= sorted
    ensures Sorted(sorted) ==> Sorted(shown)
    ensures Sorted(sorted) ==>
              forall i, j :: 0 <= i < |shown| <= j < |sorted| ==> AtMost(shown[i].date, sorted[j].date)
  {
    sorted[..Min(ShownCount, |sorted|)]
  }

  /** Lines 64-87: builds one record per person, sorts them by date and keeps the
      first ten; the first person whose record fails aborts the whole list. */
  method UpcomingBirthdays(people: seq<Person>, today: Date) returns (r: Result<seq<Entry>>)
    requires IsValid(today)
    ensures r.Ok? <==> forall i :: 0 <= i < |people| ==> EntryFor(people[i], today).Ok?
    ensures r.Ok? ==> r.value == NextTen(SortByDate(AllEntries(people, today).value))
    ensures r.Err? ==> r.error == AllEntries(people, today).error
  {
    var upcoming: seq<Entry> := [];
    var i := 0;
    while i < |people|
      invariant 0 <= i <= |people|
      invariant AllEntries(people[..i], today) == Ok(upcoming)
    {
      assert people[..i + 1][..i] == people[..i];
      match EntryFor(people[i], today)
      case Err(e) =>
        AllEntriesFailurePersists(people, i + 1, today);
        return Err(e);
      case Ok(entry) =>
        upcoming := upcoming + [entry];
      i := i + 1;
    }
    assert people[..i] == people;
    var sorted := SortByDate(upcoming);
    r := Ok(sorted[..Min(ShownCount, |sorted|)]);
    assert r.value == NextTen(sorted);
  }

  /** Once a prefix fails, the whole list fails with the same error. */
  lemma {:induction false} AllEntriesFailurePersists(people: seq<Person>, k: nat, today: Date)
    requires IsValid(today) && k <= |people|
    requires AllEntries(people[..k], today).Err?
    ensures AllEntries(people, today) == AllEntries(people[..k], today)
    decreases |people| - k
  {
    if k < |people| {
      assert people[..k + 1][..k] == people[..k];
      AllEntriesFailurePersists(people, k + 1, today);
    } else {
      assert people[..k] == people;
    }
  }
}

=== FILE: dates.dfy ===
/** Proleptic Gregorian calendar dates with the year range of Python's `datetime`
    (1 to 9999). Only the date part matters to the birthday list: every date it
    builds comes from `strptime` and so has time 00:00. */
module Dates {
  import opened Results

  const MinYear := 1
  const MaxYear := 9999

  datatype Date = Date(year: int, month: int, day: int)

  predicate IsLeapYear(y: int) {
    y % 4 == 0 && (y % 100 != 0 || y % 400 == 0)
  }

  function DaysInMonth(y: int, m: int): (n: int)
    requires 1 <= m <= 12
    ensures 28 <= n <= 31
    ensures n == 28 <==> m == 2 && !IsLeapYear(y)
    ensures n == 29 <==> m == 2 && IsLeapYear(y)
    ensures n == 31 <==> m in {1, 3, 5, 7, 8, 10, 12}
  {
    if m == 2 then (if IsLeapYear(y) then 29 else 28)
    else if m == 4 || m == 6 || m == 9 || m == 11 then 30
    else 31
  }

  /** A date Python's `datetime` accepts. */
  predicate IsValid(d: Date) {
    MinYear <= d.year <= MaxYear && 1 <= d.month <= 12 && 1 <= d.day <= DaysInMonth(d.year, d.month)
  }

  predicate IsLeapDay(d: Date) {
    d.month == 2 && d.day == 29
  }

  /** Chronological order: lexicographic on (year, month, day). */
  predicate Before(a: Date, b: Date) {
    a.year < b.year || (a.year == b.year && (a.month < b.month || (a.month == b.month && a.day < b.day)))
  }

  predicate AtMost(a: Date, b: Date) {
    !Before(b, a)
  }

  /** Python's tuple comparison `(a.month, a.day) < (b.month, b.day)`. */
  predicate MonthDayBefore(a: Date, b: Date) {
    a.month < b.month || (a.month == b.month && a.day < b.day)
  }

  predicate SameMonthDay(a: Date, b: Date) {
    a.month == b.month && a.day == b.day
  }

  /** The checks of Python's date constructor `date(y, m, d)`: year range first,
      then the day against the month's length. */
  function MakeDate(y: int, m: int, d: int): (r: Result<Date>)
    requires 1 <= m <= 12
    ensures r.Ok? <==> IsValid(Date(y, m, d))
    ensures r.Ok? ==> r.value == Date(y, m, d)
    ensures !(MinYear <= y <= MaxYear) ==> r == Err(YearOutOfRange(y))
    ensures MinYear <= y <= MaxYear && r.Err? ==> r == Err(DayOutOfRange)
  {
    if y < MinYear || y > MaxYear then Err(YearOutOfRange(y))
    else if d < 1 || d > DaysInMonth(y, m) then Err(DayOutOfRange)
    else Ok(Date(y, m, d))
  }

  /** `d.replace(year=y)`: the same month and day in year `y`, or the error Python raises. */
  function ReplaceYear(d: Date, y: int): (r: Result<Date>)
    requires IsValid(d)
    ensures r.Ok? <==> MinYear <= y <= MaxYear && !(IsLeapDay(d) && !IsLeapYear(y))
    ensures r.Ok? ==> r.value == Date(y, d.month, d.day) && IsValid(r.value)
    ensures r.Err? ==> r.error == if MinYear <= y <= MaxYear then DayOutOfRange else YearOutOfRange(y)
  {
    MakeDate(y, d.month, d.day)
  }
}

=== FILE: decimal.dfy ===
/** Decimal digit strings: the ASCII digits that `%Y`, `%m` and `%d` read and write,
    and the `str(int)` rendering of an age. */
module Decimal {

  predicate IsDigit(c: char) {
    '0' <= c <= '9'
  }

  predicate AllDigits(s: string) {
    forall i :: 0 <= i < |s| ==> IsDigit(s[i])
  }

  function DigitValue(c: char): (n: nat)
    requires IsDigit(c)
    ensures n < 10
  {
    c as int - '0' as int
  }

  function DigitChar(n: nat): (c: char)
    requires n < 10
    ensures IsDigit(c) && DigitValue(c) == n
  {
    ('0' as int + n) as char
  }

  /** The number a digit string denotes, most significant digit first. */
  function DigitsValue(s: string): nat
    requires AllDigits(s)
  {
    if s == [] then 0 else DigitsValue(s[..|s| - 1]) * 10 + DigitValue(s[|s| - 1])
  }

  lemma OneDigitValue(a: char)
    requires IsDigit(a)
    ensures DigitsValue([a]) == DigitValue(a)
  {
    assert [a][..0] == [];
  }

  lemma TwoDigitsValue(a: char, b: char)
    requires IsDigit(a) && IsDigit(b)
    ensures DigitsValue([a, b]) == 10 * DigitValue(a) + DigitValue(b)
  {
    assert [a, b][..1] == [a];
    OneDigitValue(a);
  }

  function Pow10(w: nat): (p: nat)
    ensures p >= 1
  {
    if w == 0 then 1 else 10 * Pow10(w - 1)
  }

  /** `n` written with exactly `w` digits, zero-padded on the left (`%04d`, `%02d`). */
  function PadDigits(n: nat, w: nat): (s: string)
    ensures |s| == w && AllDigits(s)
  {
    if w == 0 then [] else PadDigits(n / 10, w - 1) + [DigitChar(n % 10)]
  }

  lemma {:induction false} PadDigitsRoundTrip(n: nat, w: nat)
    requires n < Pow10(w)
    ensures DigitsValue(PadDigits(n, w)) == n
  {
    if w > 0 {
      assert n / 10 < Pow10(w - 1);
      PadDigitsRoundTrip(n / 10, w - 1);
      var s := PadDigits(n, w);
      assert s[..|s| - 1] == PadDigits(n / 10, w - 1);
    }
  }

  /** Python's `str(n)` for a natural number: no leading zero. */
  function NatToDecimal(n: nat): (s: string)
    ensures |s| >= 1 && AllDigits(s)
  {
    if n < 10 then [DigitChar(n)] else NatToDecimal(n / 10) + [DigitChar(n % 10)]
  }

  lemma {:induction false} NatToDecimalRoundTrip(n: nat)
    ensures DigitsValue(NatToDecimal(n)) == n
    ensures NatToDecimal(n)[0] == '0' <==> n == 0
  {
    if n >= 10 {
      NatToDecimalRoundTrip(n / 10);
      var s := NatToDecimal(n);
      assert s[..|s| - 1] == NatToDecimal(n / 10);
    }
  }

  /** Python's `str(i)` for any integer: a minus sign, then the digits of `|i|`. */
  function IntToDecimal(i: int): string
  {
    if i < 0 then "-" + NatToDecimal(-i) else NatToDecimal(i)
  }

  lemma IntToDecimalRoundTrip(i: int)
    ensures var s := IntToDecimal(i);
      |s| >= 1 && (s[0] == '-' <==> i < 0) &&
      var digits := if i < 0 then s[1..] else s;
      |digits| >= 1 && AllDigits(digits) && DigitsValue(digits) == (if i < 0 then -i else i) &&
      (digits[0] == '0' <==> i == 0)
  {
    var s := IntToDecimal(i);
    if i < 0 {
      NatToDecimalRoundTrip(-i);
      assert s[1..] == NatToDecimal(-i);
    } else {
      NatToDecimalRoundTrip(i);
    }
  }
}

=== FILE: iso_date.dfy ===
/** `datetime.strptime(text, "%Y-%m-%d")`, the parse of a person's birth date.
    Python turns the format into the regular expression
    `(\d\d\d\d)-(1[0-2]|0[1-9]|[1-9])-(3[01]|[12]\d|0[1-9]|[1-9]| [1-9])`, matches it
    at the start of the text, insists that the match reach the end, and finally
    builds the date, which checks the year range and the day of the month.
    Alternatives are tried left to right; for this pattern the first alternative
    that matches a field is the one the whole match uses. */
module IsoDate {
  import opened Results
  import opened Decimal
  import opened Dates

  /** A matched field: its value and the number of characters it consumed. */
  datatype Field = Field(value: nat, width: nat)

  /** The `%m` group `1[0-2]|0[1-9]|[1-9]` at the front of `t`: the month its
      digits spell; two digits are taken whenever an alternative matches them. */
  function MonthField(t: string): (r: Option<Field>)
    ensures r.None? <==>
              !(|t| >= 1 && '1' <= t[0] <= '9') && !(|t| >= 2 && t[0] == '0' && '1' <= t[1] <= '9')
    ensures r.Some? ==> 1 <= r.value.width <= 2 && r.value.width <= |t|
    ensures r.Some? ==> AllDigits(t[..r.value.width]) && r.value.value == DigitsValue(t[..r.value.width])
    ensures r.Some? ==> 1 <= r.value.value <= 12
    ensures r.Some? && r.value.width == 1 ==> !(|t| >= 2 && t[0] == '1' && '0' <= t[1] <= '2')
  {
    if |t| >= 2 && t[0] == '1' && '0' <= t[1] <= '2' then
      assert t[..2] == [t[0], t[1]];
      TwoDigitsValue(t[0], t[1]);
      Some(Field(10 + DigitValue(t[1]), 2))
    else if |t| >= 2 && t[0] == '0' && '1' <= t[1] <= '9' then
      assert t[..2] == [t[0], t[1]];
      TwoDigitsValue(t[0], t[1]);
      Some(Field(DigitValue(t[1]), 2))
    else if |t| >= 1 && '1' <= t[0] <= '9' then
      assert t[..1] == [t[0]];
      OneDigitValue(t[0]);
      Some(Field(DigitValue(t[0]), 1))
    else None
  }

  /** The digits of a matched `%d` field: the ` [1-9]` alternative skips its space. */
  function DayDigits(t: string, f: Field): string
    requires 1 <= f.width <= |t|
  {
    if t[0] == ' ' then t[1..f.width] else t[..f.width]
  }

  /** The `%d` group `3[01]|[12]\d|0[1-9]|[1-9]| [1-9]` at the front of `t`: the day
      its digits spell; two characters are taken whenever an alternative matches them. */
  function DayField(t: string): (r: Option<Field>)
    ensures r.None? <==>
              !(|t| >= 1 && '1' <= t[0] <= '9') && !(|t| >= 2 && t[0] == '0' && '1' <= t[1] <= '9') &&
              !(|t| >= 2 && t[0] == ' ' && '1' <= t[1] <= '9')
    ensures r.Some? ==> 1 <= r.value.width <= 2 && r.value.width <= |t|
    ensures r.Some? ==> AllDigits(DayDigits(t, r.value)) && r.value.value == DigitsValue(DayDigits(t, r.value))
    ensures r.Some? ==> 1 <= r.value.value <= 31
    ensures r.Some? && r.value.width == 1 ==>
              !(|t| >= 2 && ((t[0] == '3' && '0' <= t[1] <= '1') || ('1' <= t[0] <= '2' && IsDigit(t[1]))))
  {
    if |t| >= 2 && t[0] == '3' && '0' <= t[1] <= '1' then
      assert t[..2] == [t[0], t[1]];
      TwoDigitsValue(t[0], t[1]);
      Some(Field(30 + DigitValue(t[1]), 2))
    else if |t| >= 2 && '1' <= t[0] <= '2' && IsDigit(t[1]) then
      assert t[..2] == [t[0], t[1]];
      TwoDigitsValue(t[0], t[1]);
      Some(Field(10 * DigitValue(t[0]) + DigitValue(t[1]), 2))
    else if |t| >= 2 && t[0] == '0' && '1' <= t[1] <= '9' then
      assert t[..2] == [t[0], t[1]];
      TwoDigitsValue(t[0], t[1]);
      Some(Field(DigitValue(t[1]), 2))
    else if |t| >= 1 && '1' <= t[0] <= '9' then
      assert t[..1] == [t[0]];
      OneDigitValue(t[0]);
      Some(Field(DigitValue(t[0]), 1))
    else if |t| >= 2 && t[0] == ' ' && '1' <= t[1] <= '9' then
      assert t[1..2] == [t[1]];
      OneDigitValue(t[1]);
      Some(Field(DigitValue(t[1]), 2))
    else None
  }

  /** `s` spells `d`: the year in the four leading digits, a dash, the month in the one
      or two digits up to the second dash, and the day in the digits after it (after
      one space, if the day starts with one); month and day are each written in one
      of the spellings the pattern accepts, and nothing follows the day. */
  predicate Spells(s: string, d: Date) {
    |s| >= 8 && AllDigits(s[..4]) && d.year == DigitsValue(s[..4]) && s[4] == '-' &&
    var k := if s[6] == '-' then 6 else 7;
    k + 1 < |s| && s[k] == '-' && AllDigits(s[5..k]) && d.month == DigitsValue(s[5..k]) &&
    var day := if s[k + 1] == ' ' then s[k + 2..] else s[k + 1..];
    AllDigits(day) && d.day == DigitsValue(day) &&
    1 <= d.month <= 12 && 1 <= d.day <= 31 && MonthSpelling(d.month, s[5..k]) && DaySpelling(d.day, s[k + 1..])
  }

  function ParseDate(s: string): (r: Result<Date>)
    ensures r.Ok? ==> IsValid(r.value)
    ensures |s| < 8 ==> r.Err?
    ensures r.Ok? ==> AllDigits(s[..4]) && r.value.year == DigitsValue(s[..4])
  {
    if |s| < 5 || !AllDigits(s[..4]) || s[4] != '-' then Err(FormatMismatch)
    else
      match MonthField(s[5..])
      case None => Err(FormatMismatch)
      case Some(m) =>
        var i := 5 + m.width;
        if i >= |s| || s[i] != '-' then Err(FormatMismatch)
        else
          match DayField(s[i + 1..])
          case None => Err(FormatMismatch)
          case Some(d) =>
            var j := i + 1 + d.width;
            if j < |s| then Err(UnconvertedData(s[j..]))
            else MakeDate(DigitsValue(s[..4]), m.value, d.value)
  }

  /** The characters `%m` consumes are one of the month's accepted spellings. */
  lemma MonthFieldSpelling(t: string)
    requires MonthField(t).Some?
    ensures var f := MonthField(t).value; MonthSpelling(f.value, t[..f.width])
  {
    var f := MonthField(t).value;
    TwoDigits(f.value);
    if f.width == 2 {
      assert t[..2] == [t[0], t[1]];
    } else {
      assert t[..1] == [t[0]];
    }
  }

  /** The characters `%d` consumes are one of the day's accepted spellings. */
  lemma DayFieldSpelling(t: string)
    requires DayField(t).Some?
    ensures var f := DayField(t).value; DaySpelling(f.value, t[..f.width])
  {
    var f := DayField(t).value;
    TwoDigits(f.value);
    if f.width == 2 {
      assert t[..2] == [t[0], t[1]];
    } else {
      assert t[..1] == [t[0]];
    }
  }

  /** A date the parse returns is the one the text spells out field by field, and
      the text is one of its accepted spellings: "1990-3-5" and "1990-03- 5" both
      read as March 5th, 1990, while "1990-03-005" and "1990-03- 10" do not parse. */
  lemma ParseDateSpells(s: string)
    ensures ParseDate(s).Ok? ==> Spells(s, ParseDate(s).value)
  {
    if ParseDate(s).Ok? {
      var m := MonthField(s[5..]).value;
      var i := 5 + m.width;
      var d := DayField(s[i + 1..]).value;
      MonthFieldSpelling(s[5..]);
      DayFieldSpelling(s[i + 1..]);
      assert m.width == 2 ==> IsDigit(s[5..][..m.width][1]);
      assert s[5..i] == s[5..][..m.width];
      assert s[i + 1..][..d.width] == s[i + 1..];
      assert s[i + 1] == ' ' ==> s[i + 1..][1..d.width] == s[i + 2..];
    }
  }

  /** The ISO text `YYYY-MM-DD` a configuration file holds for a date. */
  function FormatDate(d: Date): (s: string)
    requires IsValid(d)
    ensures |s| == 10 && s[4] == '-' && s[7] == '-'
  {
    PadDigits(d.year, 4) + "-" + PadDigits(d.month, 2) + "-" + PadDigits(d.day, 2)
  }

  lemma TwoDigits(n: nat)
    requires n < 100
    ensures PadDigits(n, 2) == [DigitChar(n / 10), DigitChar(n % 10)]
  {
    assert PadDigits(n / 10, 1) == [DigitChar(n / 10)];
  }

  /** Every valid date written in ISO form parses back to itself. */
  lemma {:induction false} ParseFormatRoundTrip(d: Date)
    requires IsValid(d)
    ensures ParseDate(FormatDate(d)) == Ok(d)
  {
    var s := FormatDate(d);
    var ys := PadDigits(d.year, 4);
    assert s[..4] == ys;
    assert Pow10(4) == 10000;
    PadDigitsRoundTrip(d.year, 4);
    TwoDigits(d.month);
    TwoDigits(d.day);
    var ms := PadDigits(d.month, 2);
    var ds := PadDigits(d.day, 2);
    assert s[5..] == ms + "-" + ds;
    assert MonthField(s[5..]) == Some(Field(d.month, 2));
    assert s[8..] == ds;
    assert DayField(s[8..]) == Some(Field(d.day, 2));
  }

  /** The spellings of month `m` that `%m` accepts: two digits, or one without
      the leading zero. */
  predicate MonthSpelling(m: int, ms: string)
    requires 1 <= m <= 12
  {
    ms == PadDigits(m, 2) || (m < 10 && ms == [DigitChar(m)])
  }

  /** The spellings of day `n` that `%d` accepts: two digits, or, below 10, one
      digit alone or after a space. */
  predicate DaySpelling(n: int, ds: string)
    requires 1 <= n <= 31
  {
    ds == PadDigits(n, 2) || (n < 10 && (ds == [DigitChar(n)] || ds == [' ', DigitChar(n)]))
  }

  lemma MonthSpellingRead(m: int, ms: string, rest: string)
    requires 1 <= m <= 12 && MonthSpelling(m, ms)
    ensures MonthField(ms + "-" + rest) == Some(Field(m, |ms|))
  {
    TwoDigits(m);
    var t := ms + "-" + rest;
    if |ms| == 1 {
      assert t[0] == DigitChar(m) && t[1] == '-';
    } else {
      assert t[0] == DigitChar(m / 10) && t[1] == DigitChar(m % 10);
    }
  }

  lemma DaySpellingRead(n: int, ds: string)
    requires 1 <= n <= 31 && DaySpelling(n, ds)
    ensures DayField(ds) == Some(Field(n, |ds|))
  {
    TwoDigits(n);
  }

  /** Every spelling the pattern accepts for a valid date parses to that date:
      "1990-03-05", "1990-3-5", "1990-03-5", "1990-3-05" and "1990-03- 5" all read
      as March 5th, 1990. */
  lemma {:induction false} SpelledDateParses(d: Date, ms: string, ds: string)
    requires IsValid(d) && MonthSpelling(d.month, ms) && DaySpelling(d.day, ds)
    ensures ParseDate(PadDigits(d.year, 4) + "-" + ms + "-" + ds) == Ok(d)
  {
    var ys := PadDigits(d.year, 4);
    var s := ys + "-" + ms + "-" + ds;
    assert Pow10(4) == 10000;
    PadDigitsRoundTrip(d.year, 4);
    assert s[..4] == ys;
    assert s[5..] == ms + "-" + ds;
    MonthSpellingRead(d.month, ms, ds);
    var i := 5 + |ms|;
    assert s[i + 1..] == ds;
    DaySpellingRead(d.day, ds);
  }

  /** Any text after the day is refused, and reported as the unconverted rest. */
  lemma {:induction false} TrailingTextRefused(d: Date, t: string)
    requires IsValid(d) && t != []
    ensures ParseDate(FormatDate(d) + t) == Err(UnconvertedData(t))
  {
    var s := FormatDate(d) + t;
    var ms := PadDigits(d.month, 2);
    var ds := PadDigits(d.day, 2);
    assert s[..4] == PadDigits(d.year, 4);
    assert s[5..] == ms + "-" + (ds + t);
    MonthSpellingRead(d.month, ms, ds + t);
    assert s[8..] == ds + t;
    TwoDigits(d.day);
    assert (ds + t)[..2] == ds;
    assert s[10..] == t;
  }

  /** A two-digit month outside 01..12 does not match `%m`: "00" matches no
      alternative, and from "13" to "99" only the first digit is read, so the dash
      that must follow the month is missing. */
  lemma {:induction false} MonthOutOfRangeRefused(year: string, a: char, b: char, rest: string)
    requires |year| == 4 && AllDigits(year) && IsDigit(a) && IsDigit(b)
    requires DigitsValue([a, b]) == 0 || DigitsValue([a, b]) > 12
    ensures ParseDate(year + "-" + [a, b] + rest) == Err(FormatMismatch)
  {
    var s := year + "-" + [a, b] + rest;
    TwoDigitsValue(a, b);
    assert s[..4] == year;
    assert s[5..] == [a, b] + rest;
  }

  /** `%d` reads no more than two characters: a third day digit does not match the
      format, and after a space only one digit is read, the rest being unconverted. */
  lemma DayOverreadRefused()
    ensures ParseDate("1990-03-005") == Err(FormatMismatch)
    ensures ParseDate("1990-03- 10") == Err(UnconvertedData("0"))
  {
    assert "1990-03-005"[5..] == "03-005";
    assert "1990-03-005"[8..] == "005";
    assert "1990-03- 10"[5..] == "03- 10";
    assert "1990-03- 10"[8..] == " 10";
    assert "1990-03- 10"[10..] == "0";
  }

  /** The pattern accepts the day, the date constructor refuses it. */
  lemma NonLeapFebruaryTwentyNinthRefused()
    ensures ParseDate("2023-02-29") == Err(DayOutOfRange)
  {
    assert "2023-02-29"[5..] == "02-29";
    assert MonthField("02-29") == Some(Field(2, 2));
    assert "2023-02-29"[8..] == "29";
    assert DayField("29") == Some(Field(29, 2));
    assert "2023-02-29"[..4] == "2023";
    assert DigitsValue("2023") == 2023 by {
      assert "2023"[..3] == "202";
      assert "202"[..2] == "20";
      assert "20"[..1] == "2";
    }
  }
}

=== FILE: layout.dfy ===
/** The integer layout of the two text lists drawn on the 1200x825 canvas: the
    birthday lines under the section title and the energy table on the right.
    Fonts, pixel drawing and the float formatting of readings are not modelled;
    a reading arrives here already formatted. */
module Layout {
  import opened Results
  import opened Decimal
  import opened Dates
  import opened Birthdays

  const ImageHeight := 825
  /** The "updated at" line is drawn 50 pixels above the bottom edge. */
  const FooterY := ImageHeight - 50

  const ListX := 50
  const ListStartY := 240
  const ListLineHeight := 40

  const TableX := 900
  const TableY := 500
  const TableLineHeight := 25

  const Bullet := '\U{2022}'
  const Euro := '\U{20AC}'

  /** One birthday line: its position, its text and whether the cake icon follows it. */
  datatype Row = Row(x: int, y: int, text: string, withIcon: bool)

  /** One line of the energy table. */
  datatype TableLine = TableLine(x: int, y: int, text: string)

  /** A configured energy sensor: its "entity_id" and "label" keys, either of which
      the configuration may lack. */
  datatype EnergyEntity = EnergyEntity(entityId: Option<string>, caption: Option<string>)

  /** `strftime("• %d-%m")`: a bullet, then day and month on two digits each. */
  function DayMonthLabel(d: Date): string
    requires IsValid(d)
  {
    [Bullet, ' '] + PadDigits(d.day, 2) + "-" + PadDigits(d.month, 2)
  }

  /** `f"{date_str} : {nom} - {age} {label_years}"`. */
  function LineText(e: Entry, labelYears: string): string
    requires IsValid(e.date)
  {
    DayMonthLabel(e.date) + " : " + e.name + " - " + IntToDecimal(e.age) + " " + labelYears
  }

  /** The day and the month can be read back from the line, and the name follows them. */
  lemma LineTextShowsDate(e: Entry, labelYears: string)
    requires IsValid(e.date)
    ensures var t := LineText(e, labelYears);
            |t| >= 10 + |e.name| && t[0] == Bullet && t[4] == '-' &&
            AllDigits(t[2..4]) && DigitsValue(t[2..4]) == e.date.day &&
            AllDigits(t[5..7]) && DigitsValue(t[5..7]) == e.date.month &&
            t[7..10 + |e.name|] == " : " + e.name
  {
    var t := LineText(e, labelYears);
    assert Pow10(2) == 100;
    PadDigitsRoundTrip(e.date.day, 2);
    PadDigitsRoundTrip(e.date.month, 2);
    assert t[2..4] == PadDigits(e.date.day, 2);
    assert t[5..7] == PadDigits(e.date.month, 2);
  }

  /** Lines 117-127: the i-th shown entry is drawn at x = 50, y = 240 + 40 i, and
      an entry falling today gets the icon. */
  method BirthdayRows(shown: seq<Entry>, labelYears: string) returns (rows: seq<Row>)
    requires forall i :: 0 <= i < |shown| ==> IsValid(shown[i].date)
    ensures |rows| == |shown|
    ensures forall i :: 0 <= i < |rows| ==>
                          rows[i].x == ListX && rows[i].y == ListStartY + i * ListLineHeight &&
                          rows[i].text == LineText(shown[i], labelYears) && rows[i].withIcon == shown[i].isToday
    ensures forall i :: 0 < i < |rows| ==> rows[i].y == rows[i - 1].y + ListLineHeight
    ensures |shown| <= ShownCount ==>
              forall i :: 0 <= i < |rows| ==> ListStartY <= rows[i].y && rows[i].y + ListLineHeight <= FooterY
  {
    rows := [];
    for i := 0 to |shown|
      invariant |rows| == i
      invariant forall j :: 0 <= j < i ==>
                              rows[j].x == ListX && rows[j].y == ListStartY + j * ListLineHeight &&
                              rows[j].text == LineText(shown[j], labelYears) && rows[j].withIcon == shown[j].isToday
    {
      var entry := shown[i];
      var line := LineText(entry, labelYears);
      var x := ListX;
      var y := ListStartY + i * ListLineHeight;
      rows := rows + [Row(x, y, line, entry.isToday)];
    }
  }

  /** Lines 64-127 end to end: the birthday section holds one line per shown
      entry, at most ten, every one of them between the section title and the
      footer line. The i-th line shows the i-th of the ten earliest occurrences,
      and carries the icon exactly when that birthday is today. */
  method BirthdaySection(people: seq<Person>, today: Date, labelYears: string) returns (r: Result<seq<Row>>)
    requires IsValid(today)
    ensures r.Ok? <==> forall i :: 0 <= i < |people| ==> EntryFor(people[i], today).Ok?
    ensures r.Ok? ==> |r.value| == Min(ShownCount, |people|)
    ensures r.Ok? ==> forall i :: 0 <= i < |r.value| ==>
                                   ListStartY <= r.value[i].y && r.value[i].y + ListLineHeight <= FooterY
    ensures r.Ok? ==>
              var shown := NextTen(SortByDate(AllEntries(people, today).value));
              |r.value| == |shown| && (forall i :: 0 <= i < |shown| ==> IsValid(shown[i].date)) &&
              forall i :: 0 <= i < |shown| ==>
                            r.value[i].x == ListX && r.value[i].y == ListStartY + i * ListLineHeight &&
                            r.value[i].withIcon == shown[i].isToday &&
                            r.value[i].text == LineText(shown[i], labelYears)
  {
    var upcoming := UpcomingBirthdays(people, today);
    match upcoming
    case Err(e) =>
      r := Err(e);
    case Ok(shown) =>
      var all := AllEntries(people, today).value;
      var sorted := SortByDate(all);
      forall i | 0 <= i < |shown|
        ensures IsValid(shown[i].date)
      {
        assert shown[i] == sorted[i];
        assert shown[i] in multiset(all);
        var j :| 0 <= j < |all| && all[j] == shown[i];
        assert EntryFor(people[j], today) == Ok(all[j]);
      }
      var rows := BirthdayRows(shown, labelYears);
      r := Ok(rows);
  }

  /** Lines 196-199: a caption containing the euro sign shows a price, any other an energy. */
  function UnitSuffix(caption: string): (suffix: string)
    ensures suffix == [Euro] <==> Euro in caption
    ensures suffix == "kWh" <==> Euro !in caption
  {
    if Euro in caption then [Euro] else "kWh"
  }

  /** `f"{label} : {text_value}"` with `text_value` the formatted reading and the suffix. */
  function EnergyText(caption: string, reading: string): string
  {
    caption + " : " + reading + " " + UnitSuffix(caption)
  }

  /** A reading missing from the fetched data is shown as `0` formatted with `.2f`. */
  const MissingReading := "0.00"

  /** Lines 181-184 and 192-200: the readings are fetched for every sensor first,
      so a sensor without "entity_id" stops the run before anything is drawn; then
      one line per sensor, 25 pixels apart from y = 500, each ending in the unit its
      caption calls for, where the first sensor without "label" stops the run.
      `readings` maps an entity id to its reading already formatted with two
      decimals. */
  method EnergyRows(entities: seq<EnergyEntity>, readings: map<string, string>) returns (r: Result<seq<TableLine>>)
    ensures (exists i :: 0 <= i < |entities| && entities[i].entityId.None?) ==> r == Err(KeyMissing("entity_id"))
    ensures (forall i :: 0 <= i < |entities| ==> entities[i].entityId.Some?) ==>
              (r == Err(KeyMissing("label")) <==> exists i :: 0 <= i < |entities| && entities[i].caption.None?)
    ensures r.Ok? <==> forall i :: 0 <= i < |entities| ==> entities[i].entityId.Some? && entities[i].caption.Some?
    ensures r.Ok? ==> |r.value| == |entities|
    ensures r.Ok? ==> forall i :: 0 <= i < |r.value| ==>
                                   r.value[i].x == TableX && r.value[i].y == TableY + i * TableLineHeight
    ensures r.Ok? ==> forall i :: 0 <= i < |r.value| ==>
                                   var id := entities[i].entityId.value;
                                   var reading := if id in readings then readings[id] else MissingReading;
                                   r.value[i].text == EnergyText(entities[i].caption.value, reading)
    ensures r.Ok? ==> forall i :: 0 <= i < |r.value| ==>
                                   var t := r.value[i].text;
                                   |t| >= 1 && (t[|t| - 1] == Euro <==> Euro in entities[i].caption.value)
  {
    for i := 0 to |entities|
      invariant forall j :: 0 <= j < i ==> entities[j].entityId.Some?
    {
      if entities[i].entityId.None? {
        return Err(KeyMissing("entity_id"));
      }
    }
    var lines: seq<TableLine> := [];
    for i := 0 to |entities|
      invariant |lines| == i
      invariant forall j :: 0 <= j < i ==> entities[j].caption.Some?
      invariant forall j :: 0 <= j < i ==> lines[j].x == TableX && lines[j].y == TableY + j * TableLineHeight
      invariant forall j :: 0 <= j < i ==>
                              var id := entities[j].entityId.value;
                              var reading := if id in readings then readings[id] else MissingReading;
                              lines[j].text == EnergyText(entities[j].caption.value, reading)
    {
      var entity := entities[i];
      if entity.caption.None? {
        return Err(KeyMissing("label"));
      }
      var id := entity.entityId.value;
      var value := if id in readings then readings[id] else MissingReading;
      lines := lines + [TableLine(TableX, TableY + i * TableLineHeight, EnergyText(entity.caption.value, value))];
    }
    forall i | 0 <= i < |lines|
      ensures var t := lines[i].text; |t| >= 1 && (t[|t| - 1] == Euro <==> Euro in entities[i].caption.value)
    {
      var caption := entities[i].caption.value;
      if Euro !in caption {
        assert UnitSuffix(caption) == "kWh";
      }
    }
    r := Ok(lines);
  }
}

=== FILE: results.dfy ===
/** The failures the birthday computation can raise, and the wrappers that carry them.
    Each `Error` is one of the Python exceptions that abort the dashboard run. */
module Results {

  datatype Option<+T> = None | Some(value: T)

  datatype Error =
    | KeyMissing(key: string)          // KeyError on a person's dictionary
    | FormatMismatch                   // strptime: time data does not match format
    | UnconvertedData(rest: string)    // strptime: unconverted data remains
    | YearOutOfRange(year: int)        // date construction: year is out of range
    | DayOutOfRange                    // date construction: day is out of range for month

  datatype Result<+T> = Ok(value: T) | Err(error: Error)
}
